=== FILE: README.md ===
# Cat, player and interactable behaviour of STEAMGameOn24

A Dafny model of the three behaviour scripts of this small Unity game:

- **The cat NPC** (`Assets/Scripts/CatBehavior.cs`). It is a four-state machine (Waiting, Pursuing, Caught, Patrolling).
  - Every fixed step first classifies the distance to the player (Caught before Pursuing). It then either walks towards the player, walks towards the current patrol spot, or, on arriving at the spot, starts a `WaitForPatrol` coroutine.
  - When a coroutine resumes and the cat is still waiting, the cat moves on to the next spot cyclically and patrols again.
- **The player controller** (`Assets/Scripts/PlayerCharacter/PlayerController.cs`). It does the target-velocity and facing bookkeeping. An active dialogue zeroes the target velocity, stops driving the body, and blocks input and interaction.
- **Interactable objects** (`Assets/Scripts/Interactable.cs`). Interacting with a collectable item bumps its `$<name>Count` Yarn variable and marks it collected. The object then opens its dialogue node, or is destroyed when it has none. A collected object is destroyed when a dialogue completes.

Modules:

- `Optional` (`optional.dfy`): the `Option` type.
- `CatBehavior` (`cat_behavior.dfy`): the cat's state, one fixed step, one coroutine resumption, and runs of such events.
- `CatTraces` (`cat_traces.dfy`): properties over whole runs. These cover the invariant, waypoint cycling, superseded timers and the stale-timer scenario.
- `PlayerController` (`player_controller.dfy`): the player's state, its callbacks and runs of them.
- `Interactable` (`interactable.dfy`): the decision table of `Interact` and `OnDialogEnd`, one object's life, and several objects sharing a counter.

Modelling choices:

- **Geometry.** Distances reach the cat as plain reals, and the direction a cat step asks for is a tag (`Still`, `TowardSpot`, `TowardTarget`).
- **Coroutines.** A started `WaitForPatrol` coroutine is a pending timer, kept by its duration in a multiset. The environment resumes pending timers in any order, because real-time scheduling is not modelled. Starting a coroutine runs it synchronously up to its first `yield`, so the state becomes Waiting at once.
- **`Random.Range(lo, hi)` on floats** returns any value with both bounds included. It is modelled as an arbitrary real `roll` clamped into the range, so every value of the range can be drawn.
- **The spot index.** It is advanced with C#'s `%`, which takes the sign of the dividend; `CatBehavior.Rem` models that operator explicitly.
- **The player's facing.** `.normalized` only changes a vector's length, and the raycast uses the facing only as a direction. So the facing is kept as the vector it was taken from: zero stays zero, and any other vector stands for its own direction.
- **Yarn variable storage.** It is the map of its float variables, or `None` when the runner has no `VariableStorageBehaviour`.
- **Engine calls.** `Destroy` and `StartDialogue` are effects the object emits.

Two behaviours of the scripts shape the model:

- A started `WaitForPatrol` coroutine is never cancelled. So timers outlive the wait that started them, and a stale timer can end a later wait early (`CatTraces.StaleTimerEndsLaterWait`).
- `Start` only logs a missing player, which then fails at the first step. Nothing checks `PatrolSpots`: an empty list first fails when a wake computes the next spot, or when `Patrol` reads the current one. So both appear as preconditions: the distance is always given, and `ValidConfig` requires at least one spot.

## Model

| member | source | states |
|---|---|---|
| CatBehavior.Start | Assets/Scripts/CatBehavior.cs:40-45 | The cat starts Waiting at spot 0 with exactly one pending wait, of WaitTime, and satisfies the invariant. |
| CatBehavior.RandomRange | Assets/Scripts/CatBehavior.cs:162 | The drawn wait lies between the two bounds, whichever order they come in, and every value in the range can be drawn. |
| CatBehavior.Rem | Assets/Scripts/CatBehavior.cs:120 | C#'s remainder: in [0, n) for a non-negative dividend and in (-n, 0] for a negative one. |
| CatBehavior.Detect | Assets/Scripts/CatBehavior.cs:126-149 | Caught iff distance ≤ StopRadius, whatever the prior state and radii. Pursuing iff StopRadius < distance ≤ DetectionRadius. Losing the player from Pursuing or Caught starts exactly one WaitTime wait, and out of range otherwise nothing changes. The spot never moves, and a log line is written exactly on entry to Caught or Pursuing. |
| CatBehavior.Patrol | Assets/Scripts/CatBehavior.cs:151-165 | Heads for the spot iff it is farther than StopRadius. On arrival the cat waits. Every timer already pending is kept, and exactly one new timer is added, with a duration in [WaitTime/2, 2·WaitTime] for a non-negative WaitTime. |
| CatBehavior.Step | Assets/Scripts/CatBehavior.cs:84-108 | Walks towards the player iff StopRadius < distance ≤ DetectionRadius. Walks towards the spot iff out of range, patrolling and not yet there. Caught iff distance ≤ StopRadius. On arrival it stands still and waits with a timer in [WaitTime/2, 2·WaitTime] for a non-negative WaitTime. It never moves the spot, never drops a timer, adds at most one, and keeps the invariant. |
| CatBehavior.StepFollowsDetect | Assets/Scripts/CatBehavior.cs:84-104 | A fixed step writes exactly the log line of the detection it runs first. Except on a patrol arrival, it leaves the cat exactly as detection did: Pursuing in range, waiting with one more WaitTime timer after a lost chase, and unchanged when out of range while waiting or patrolling. |
| CatBehavior.StartWait | Assets/Scripts/CatBehavior.cs:110-115 | Starting `WaitForPatrol(d)` makes the cat wait at once, on the same spot, with exactly one more pending timer, of duration d. |
| CatBehavior.StepWalking | Assets/Scripts/CatBehavior.cs:167-181 | CatWalk's direction test: the cat walks iff it chases a player strictly outside the stop radius and inside the detection radius, or patrols towards a spot it has not reached. |
| CatBehavior.Resume | Assets/Scripts/CatBehavior.cs:110-124 | The resumed timer leaves the pending multiset. A waiting cat patrols towards spot (spot+1) mod \|PatrolSpots\|. Any other cat keeps its state and spot. The spot stays in bounds. |
| CatBehavior.Apply | Assets/Scripts/CatBehavior.cs:84-124 | Any step or resumption keeps the invariant. Resuming a timer that is not pending changes nothing. |
| CatTraces.RunPreservesInv | Assets/Scripts/CatBehavior.cs:110-124 | Over any interleaving of steps and wakes, the spot stays in [0, \|PatrolSpots\|) and a waiting cat always has a pending timer. |
| CatTraces.ReachableInv | Assets/Scripts/CatBehavior.cs:23 | Every cat reachable from the start keeps CurrentSpot in bounds. |
| CatTraces.AdvancesAtMostOncePerEpisode | Assets/Scripts/CatBehavior.cs:117-123 | Over any run, the spot advances at most once per waiting episode, however many superseded timers fire. |
| CatTraces.AdvancesFromStart | Assets/Scripts/CatBehavior.cs:40-45 | From the start, which is already waiting, advances exceed waiting episodes by at most one. |
| CatTraces.TwoWakesAdvanceOnce | Assets/Scripts/CatBehavior.cs:117-123 | Two timers resumed back to back advance the spot once if the cat was waiting and never otherwise. Both timers are consumed. |
| CatTraces.SpotStep | Assets/Scripts/CatBehavior.cs:120 | One event moves a valid spot to the next one, wrapping after the last, exactly when it is a delivered wake to a waiting cat. Otherwise the spot is unchanged. |
| CatTraces.SpotCountsAdvances | Assets/Scripts/CatBehavior.cs:120 | After any run the spot is (start spot + number of advances) mod \|PatrolSpots\|. |
| CatTraces.ArrivalRoundsAdvance | Assets/Scripts/CatBehavior.cs:151-165 | Each uninterrupted arrival-then-wake round advances the spot exactly once and leaves the cat patrolling. |
| CatTraces.PatrolCycles | Assets/Scripts/CatBehavior.cs:110-124 | k uninterrupted patrol legs from spot s leave the cat patrolling towards spot (s + k) mod \|PatrolSpots\|. |
| CatTraces.CaughtNoticedOnce | Assets/Scripts/CatBehavior.cs:129-136 | Keeping the player inside the stop radius keeps the cat Caught. The catch is logged once, on the first step, and never if the cat was already Caught. |
| CatTraces.StaleTimerEndsLaterWait | Assets/Scripts/CatBehavior.cs:145-148 | A timer started by an earlier lost chase ends a later 8-second patrol wait, while that wait's own timer is still pending. |
| PlayerController.Init | Assets/Scripts/PlayerCharacter/PlayerController.cs:25-30 | The player starts standing still, facing down, outside a dialogue, and satisfies the invariant. |
| PlayerController.OnDialogStartAsWritten | Assets/Scripts/PlayerCharacter/PlayerController.cs:47-52 | As written: the dialogue is active and velocity zero. The facing becomes zero when the player was standing still, and the old velocity's direction otherwise. |
| PlayerController.OnDialogStart | Assets/Scripts/PlayerCharacter/PlayerController.cs:47-52 | Corrected: as written when the player was moving, but a standing player keeps its facing. The invariant is preserved. |
| PlayerController.OnDialogEnd | Assets/Scripts/PlayerCharacter/PlayerController.cs:55-58 | Only the dialogue flag clears; velocity and facing stay. |
| PlayerController.OnMove | Assets/Scripts/PlayerCharacter/PlayerController.cs:92-97 | Ignored during a dialogue. Otherwise the target velocity becomes input × MoveSpeed and nothing else changes. |
| PlayerController.FixedStep | Assets/Scripts/PlayerCharacter/PlayerController.cs:61-89 | During a dialogue nothing changes and nothing is driven. Otherwise the body gets velocity × step, Walking is set iff the velocity is non-zero, and then the animator values are the velocity's components. A zero velocity keeps the facing, and a non-zero one becomes it. |
| PlayerController.OnInteract | Assets/Scripts/PlayerCharacter/PlayerController.cs:100-113 | No probe iff a dialogue is active. Otherwise the probe is one unit along the facing. |
| PlayerController.Apply | Assets/Scripts/PlayerCharacter/PlayerController.cs:47-97 | With the corrected OnDialogStart, every callback keeps the invariant: no target velocity during a dialogue, and a facing that points somewhere. |
| PlayerController.RunPreservesInv | Assets/Scripts/PlayerCharacter/PlayerController.cs:47-97 | With the corrected OnDialogStart, the invariant holds over any sequence of callbacks. |
| PlayerController.ReachableFacesSomewhere | Assets/Scripts/PlayerCharacter/PlayerController.cs:25-30 | With the corrected OnDialogStart, a player reached from the start always faces a non-zero direction and never has a target velocity during a dialogue. |
| PlayerController.ReachableProbeHasDirection | Assets/Scripts/PlayerCharacter/PlayerController.cs:100-105 | With the corrected OnDialogStart, a reachable player probes iff no dialogue is active, and every probe is one unit along a non-zero direction. |
| PlayerController.AsWrittenDialogGated | Assets/Scripts/PlayerCharacter/PlayerController.cs:47-97 | With the callbacks as written, the player still never has a target velocity during a dialogue, over any sequence of callbacks. |
| PlayerController.DialogFreezes | Assets/Scripts/PlayerCharacter/PlayerController.cs:61-97 | With the corrected OnDialogStart, no callback changes the player at all while a dialogue lasts. |
| PlayerController.AsWrittenDialogHoldsStill | Assets/Scripts/PlayerCharacter/PlayerController.cs:47-97 | With the callbacks as written, the dialogue stays active and the target velocity stays zero until the dialogue ends. Only the facing can change, through a repeated dialogue start. |
| PlayerController.MoveThenStepFacesInput | Assets/Scripts/PlayerCharacter/PlayerController.cs:69-97 | Moving with a non-zero input and then stepping makes the player face along the input, and the interaction probe points that way. |
| PlayerController.DialogRoundTrip | Assets/Scripts/PlayerCharacter/PlayerController.cs:47-58 | A dialogue started with the corrected OnDialogStart and then ended leaves the player still and free to move. It faces the way it last moved, or, if it was standing, the way it already faced. |
| PlayerController.IdleDialogLosesFacing | Assets/Scripts/PlayerCharacter/PlayerController.cs:49-51 | As written, the opening dialogue leaves the player facing zero, so the interaction probe has no direction. With the correction it faces down. |
| Interactable.CounterKey | Assets/Scripts/Interactable.cs:39 | The counter variable is `$`, then the item name, then `Count`, and nothing else. |
| Interactable.CounterKeyInjective | Assets/Scripts/Interactable.cs:39-41 | Different item names use different counter variables. |
| Interactable.Init | Assets/Scripts/Interactable.cs:19-29 | A started object is not collected, and its serialized fields are kept. |
| Interactable.Bump | Assets/Scripts/Interactable.cs:38-42 | A counter the storage holds goes up by exactly one. A missing counter or storage leaves everything unchanged. The set of variables and every other variable are unchanged. |
| Interactable.Interact | Assets/Scripts/Interactable.cs:31-56 | Without a runner nothing happens. Collected becomes true exactly for a collectable item, and only then is its counter bumped. A non-empty title starts that dialogue and never destroys. An empty title destroys a collected object and otherwise has no effect. |
| Interactable.OnDialogEnd | Assets/Scripts/Interactable.cs:58-65 | A collected object is destroyed; for any other object nothing happens. |
| Interactable.Apply | Assets/Scripts/Interactable.cs:31-65 | Every event keeps "collected implies collectable". A destroyed object takes no further part. |
| Interactable.OnlyCollectedDestroyed | Assets/Scripts/Interactable.cs:36-64 | Over any sequence of interactions and completed dialogues, a destroyed object was collected and collectable. |
| Interactable.NonCollectableSurvives | Assets/Scripts/Interactable.cs:36-64 | A non-collectable object, as Start leaves it, is never destroyed, whatever the player does. |
| Interactable.CounterCountsUses | Assets/Scripts/Interactable.cs:36-44 | For a collectable object with its counter in storage, the counter rises by exactly the number of interactions the object received while it existed. The set of variables is unchanged. |
| Interactable.NonCollectableKeepsStorage | Assets/Scripts/Interactable.cs:36-44 | A non-collectable object never changes the storage. |
| Interactable.CollectWithDialogue | Assets/Scripts/Interactable.cs:47-64 | A collectable item with a dialogue node opens it and survives. It is destroyed when the dialogue completes. |
| Interactable.CollectWithoutDialogue | Assets/Scripts/Interactable.cs:51-54 | A collectable item without a dialogue node is destroyed by the interaction itself. |
| Interactable.CollectAllCounts | Assets/Scripts/Interactable.cs:38-42 | Picking up several collectable objects of one name raises the shared counter by their number. |

## Left out

- Vector maths: `Vector3.Distance`, `.normalized`, and `Speed * Time.fixedDeltaTime` scaling. Distances are inputs and directions are tags or unnormalized vectors. The engine's 1e-5 thresholds in `.normalized` and `==` on vectors are not modelled.
- `CatBehavior.Step` treats a step that heads for the player or the spot as walking. A negative StopRadius with the target exactly on the cat would give a zero direction in the engine.
- Floating point: all quantities are exact reals.
- Engine calls: `Rigidbody2D.velocity`, `Animator` parameters, `Debug.Log` lines other than the two detection notices, `Debug.DrawLine` in `Update`, `FindWithTag`/`TryGetComponent` error logging, the raycast and its hit test, `Destroy`, and `StartDialogue`. They appear only as outputs or effects.
- Real time: `WaitForSeconds` durations do not order the wakes. Any pending timer may resume next.
- The cat's `Speed = 200` assignment. It only scales the engine velocity.
- `StartGame` and `EndGame` in the player controller. They are curtain fades, the opening dialogue request and quitting the application.
- Yarn Spinner internals: dialogue running, listener registration, and variables that are not floats. The storage is taken to hold only float variables.
- The physics body during a dialogue: fixed steps stop driving it, so it keeps the last velocity a movement update gave it until the dialogue ends. `PlayerController.FixedStep` emits no drive then, and nothing models the body's own motion.
- A missing player for the cat and an empty patrol list. Both make the C# script fail at run time, so they are preconditions: the distance is an input and `ValidConfig` is required.
- `Interactable.Apply`: events reaching an object after it was destroyed are ignored. The engine's behaviour for listeners of destroyed objects is not modelled.

## Findings

| source | as written | input that shows it | evidently intended | confidence | as-written member | corrected member |
|---|---|---|---|---|---|---|
| Assets/Scripts/PlayerCharacter/PlayerController.cs:49-51 | `OnDialogStart` sets the facing to the normalized target velocity even when the player stands still, so the facing becomes zero | The opening dialogue starts while the player is still: afterwards the facing is zero and `OnInteract` raycasts along a zero direction until the player moves | Keep the facing when the velocity is zero, as `UpdateMovement` does | medium, not executed | PlayerController.OnDialogStartAsWritten, PlayerController.IdleDialogLosesFacing | PlayerController.OnDialogStart, PlayerController.RunPreservesInv |

=== FILE: cat_behavior.dfy ===
/**
 The Cat NPC's behaviour (Assets/Scripts/CatBehavior.cs): a four-state machine driven by a
 fixed-step update and by the resumption of `WaitForPatrol` coroutines.

 Geometry is abstracted away: each step receives the distance to the player and the distance
 to the current patrol spot as plain reals, and the movement it asks for is a direction tag
 rather than a normalized vector. A started `WaitForPatrol` coroutine is a pending timer,
 recorded by its duration in a multiset; the environment resumes pending timers in any order.
 */
module CatBehavior {
  import opened Optional

  /** The cat's behaviours (enum CatState). */
  datatype CatState = Waiting | Pursuing | Caught | Patrolling

  /** The direction the step hands to the walk executor: zero, towards the current patrol
      spot, or towards the player. */
  datatype Direction = Still | TowardSpot | TowardTarget

  /** The edge-triggered log lines of the detection step. */
  datatype Notice = CaughtPlayer | PursuingPlayer

  /** Inspector parameters; `spotCount` is the length of PatrolSpots. */
  datatype Config = Config(detectionRadius: real, stopRadius: real, spotCount: nat, waitTime: real)

  /** The scene must supply at least one patrol spot: the timer divides by their number. */
  predicate ValidConfig(cfg: Config) {
    cfg.spotCount > 0
  }

  /** The cat's mutable fields: its state, CurrentSpot, and the durations of the
      `WaitForPatrol` coroutines started but not yet resumed. */
  datatype Cat = Cat(state: CatState, spot: int, pending: multiset<real>)

  /** The invariant every reachable cat keeps: the spot index is in bounds, and a waiting
      cat always has a timer that will end its wait. */
  predicate Inv(cfg: Config, c: Cat) {
    && 0 <= c.spot < cfg.spotCount
    && (c.state == Waiting ==> |c.pending| > 0)
  }

  /** Target strictly outside both radii: neither detection branch applies. */
  predicate OutOfRange(cfg: Config, dist: real) {
    dist > cfg.stopRadius && dist > cfg.detectionRadius
  }

  function Clamp(x: real, lo: real, hi: real): real {
    if x < lo then lo else if x > hi then hi else x
  }

  /** `Random.Range(lo, hi)` for floats: some value between the two bounds, both included.
      The engine's choice is the arbitrary real `roll`, drawn into that range. */
  function RandomRange(lo: real, hi: real, roll: real): (r: real)
    ensures lo <= hi ==> lo <= r <= hi
    ensures hi <= lo ==> hi <= r <= lo
    // every value of the range can be drawn
    ensures lo <= roll <= hi || hi <= roll <= lo ==> r == roll
  {
    if lo <= hi then Clamp(roll, lo, hi) else Clamp(roll, hi, lo)
  }

  /** The remainder of C#'s `%` on `int`: it takes the sign of the dividend. */
  function Rem(a: int, n: int): (r: int)
    requires n > 0
    ensures a >= 0 ==> 0 <= r < n
    ensures a < 0 ==> -n < r <= 0
    decreases if a < 0 then 1 - a else a
  {
    if a < 0 then -Rem(-a, n)
    else if a < n then a
    else Rem(a - n, n)
  }

  /** The initial state set by Start: waiting at spot 0, with one wait of WaitTime pending. */
  function Start(cfg: Config): (c: Cat)
    requires ValidConfig(cfg)
    ensures Inv(cfg, c)
    ensures c.state == Waiting && c.spot == 0
    ensures |c.pending| == 1 && cfg.waitTime in c.pending
  {
    Cat(Waiting, 0, multiset{cfg.waitTime})
  }

  /** Starting `WaitForPatrol(d)`: the coroutine runs synchronously up to its first yield,
      so the state becomes Waiting at once and one timer of duration `d` is pending. */
  function StartWait(c: Cat, d: real): (r: Cat)
    ensures r.state == Waiting && r.spot == c.spot
    ensures r.pending == c.pending + multiset{d}
  {
    Cat(Waiting, c.spot, c.pending + multiset{d})
  }

  datatype Detection = Detection(cat: Cat, notice: Option<Notice>)

  /** DetectPlayer: classify the distance to the player, Caught before Pursuing. */
  function Detect(cfg: Config, c: Cat, dist: real): (r: Detection)
    // the stop radius wins whatever the prior state and whatever the detection radius
    ensures r.cat.state == Caught <==> dist <= cfg.stopRadius
    ensures r.cat.state == Pursuing <==> cfg.stopRadius < dist <= cfg.detectionRadius
    // losing the player after a chase starts exactly one wait of WaitTime
    ensures OutOfRange(cfg, dist) && c.state in {Pursuing, Caught} ==>
      r.cat.state == Waiting && r.cat.pending == c.pending + multiset{cfg.waitTime}
    // out of range while waiting or patrolling, nothing changes
    ensures OutOfRange(cfg, dist) && c.state in {Waiting, Patrolling} ==> r.cat == c
    // only a timer may be added, and the spot never moves
    ensures r.cat.spot == c.spot
    ensures r.cat.pending == c.pending || r.cat.pending == c.pending + multiset{cfg.waitTime}
    ensures r.cat.state != Waiting ==> r.cat.pending == c.pending
    // the log line is written exactly on entry to Caught or Pursuing
    ensures r.notice == Some(CaughtPlayer) <==> r.cat.state == Caught && c.state != Caught
    ensures r.notice == Some(PursuingPlayer) <==> r.cat.state == Pursuing && c.state != Pursuing
  {
    if dist <= cfg.stopRadius then
      Detection(c.(state := Caught), if c.state != Caught then Some(CaughtPlayer) else None)
    else if dist <= cfg.detectionRadius then
      Detection(c.(state := Pursuing), if c.state != Pursuing then Some(PursuingPlayer) else None)
    else if c.state == Pursuing || c.state == Caught then
      Detection(StartWait(c, cfg.waitTime), None)
    else
      Detection(c, None)
  }

  datatype Movement = Movement(cat: Cat, dir: Direction)

  /** Patrol: head for the current spot, or on arrival start a wait of random length. */
  function Patrol(cfg: Config, c: Cat, spotDist: real, roll: real): (r: Movement)
    ensures r.dir == TowardSpot <==> spotDist > cfg.stopRadius
    ensures r.dir != TowardTarget
    ensures spotDist > cfg.stopRadius ==> r.cat == c
    ensures spotDist <= cfg.stopRadius ==>
      && r.cat.state == Waiting && r.cat.spot == c.spot
      && c.pending <= r.cat.pending && |r.cat.pending| == |c.pending| + 1
      && (cfg.waitTime >= 0.0 ==>
            forall d :: d in r.cat.pending - c.pending ==> cfg.waitTime / 2.0 <= d <= cfg.waitTime * 2.0)
  {
    if spotDist > cfg.stopRadius then
      Movement(c, TowardSpot)
    else
      var wait := RandomRange(cfg.waitTime / 2.0, cfg.waitTime * 2.0, roll);
      Movement(StartWait(c, wait), Still)
  }

  datatype StepResult = StepResult(cat: Cat, dir: Direction, notice: Option<Notice>)

  /** FixedUpdate: clear the direction, detect, then act on the state detection left. */
  function Step(cfg: Config, c: Cat, targetDist: real, spotDist: real, roll: real): (r: StepResult)
    // the cat walks iff it is chasing, or patrolling towards a spot it has not reached
    ensures r.dir == TowardTarget <==> cfg.stopRadius < targetDist <= cfg.detectionRadius
    ensures r.dir == TowardSpot <==>
      OutOfRange(cfg, targetDist) && c.state == Patrolling && spotDist > cfg.stopRadius
    ensures r.cat.state == Caught <==> targetDist <= cfg.stopRadius
    // arrival at the spot: stand still and wait between half and twice WaitTime
    ensures OutOfRange(cfg, targetDist) && c.state == Patrolling && spotDist <= cfg.stopRadius ==>
      && r.dir == Still && r.cat.state == Waiting
      && |r.cat.pending| == |c.pending| + 1
      && (cfg.waitTime >= 0.0 ==>
            forall d :: d in r.cat.pending - c.pending ==> cfg.waitTime / 2.0 <= d <= cfg.waitTime * 2.0)
    // a step never moves the spot index and never drops a pending timer
    ensures r.cat.spot == c.spot
    ensures c.pending <= r.cat.pending && |r.cat.pending| <= |c.pending| + 1
    ensures Inv(cfg, c) ==> Inv(cfg, r.cat)
  {
    var d := Detect(cfg, c, targetDist);
    match d.cat.state
    case Patrolling =>
      var m := Patrol(cfg, d.cat, spotDist, roll);
      StepResult(m.cat, m.dir, d.notice)
    case Pursuing =>
      StepResult(d.cat, TowardTarget, d.notice)
    case _ =>
      StepResult(d.cat, Still, d.notice)
  }

  /** The step's state and log line are those of the detection it runs first, except that a
      patrol arrival goes on to start a wait. */
  lemma StepFollowsDetect(cfg: Config, c: Cat, targetDist: real, spotDist: real, roll: real)
    ensures var r := Step(cfg, c, targetDist, spotDist, roll);
      && r.notice == Detect(cfg, c, targetDist).notice
      && (!(OutOfRange(cfg, targetDist) && c.state == Patrolling && spotDist <= cfg.stopRadius) ==>
            r.cat == Detect(cfg, c, targetDist).cat)
  {
    var d := Detect(cfg, c, targetDist);
    if d.cat.state == Patrolling {
      assert OutOfRange(cfg, targetDist) && c == d.cat;
    }
  }

  /** Whether the step leaves the cat walking (CatWalk: a non-zero direction). */
  predicate Walking(r: StepResult) {
    r.dir != Still
  }

  /** The cat walks exactly while chasing a player in range, or while patrolling towards a
      spot it has not reached; otherwise CatWalk stops it. */
  lemma StepWalking(cfg: Config, c: Cat, targetDist: real, spotDist: real, roll: real)
    ensures Walking(Step(cfg, c, targetDist, spotDist, roll)) <==>
      || cfg.stopRadius < targetDist <= cfg.detectionRadius
      || (OutOfRange(cfg, targetDist) && c.state == Patrolling && spotDist > cfg.stopRadius)
  {
  }

  /** A pending `WaitForPatrol` resumes: if the cat is still waiting, move on to the next spot
      cyclically and patrol; otherwise the coroutine simply ends. */
  function Resume(cfg: Config, c: Cat, d: real): (r: Cat)
    requires ValidConfig(cfg)
    requires d in c.pending
    ensures r.pending == c.pending - multiset{d} && |r.pending| == |c.pending| - 1
    ensures c.state == Waiting ==> r.state == Patrolling && r.spot == Rem(c.spot + 1, cfg.spotCount)
    ensures c.state != Waiting ==> r.state == c.state && r.spot == c.spot
    ensures 0 <= c.spot < cfg.spotCount ==> 0 <= r.spot < cfg.spotCount
    ensures Inv(cfg, c) ==> Inv(cfg, r)
  {
    var rest := c.pending - multiset{d};
    if c.state == Waiting then
      Cat(Patrolling, Rem(c.spot + 1, cfg.spotCount), rest)
    else
      c.(pending := rest)
  }

  /** What the engine may deliver to the cat: a fixed step, or the resumption of a wait. */
  datatype Event =
    | Tick(targetDist: real, spotDist: real, roll: real)
    | Wake(duration: real)

  /** A Wake is a delivery only when a timer of that duration is pending. */
  predicate Delivers(c: Cat, e: Event) {
    e.Wake? && e.duration in c.pending
  }

  function Apply(cfg: Config, c: Cat, e: Event): (r: Cat)
    requires ValidConfig(cfg)
    ensures Inv(cfg, c) ==> Inv(cfg, r)
    ensures e.Wake? && !Delivers(c, e) ==> r == c
  {
    match e
    case Tick(t, s, roll) => Step(cfg, c, t, s, roll).cat
    case Wake(d) => if d in c.pending then Resume(cfg, c, d) else c
  }

  function Run(cfg: Config, c: Cat, es: seq<Event>): Cat
    requires ValidConfig(cfg)
    decreases |es|
  {
    if es == [] then c else Run(cfg, Apply(cfg, c, es[0]), es[1..])
  }
}

=== FILE: cat_traces.dfy ===
/**
 Properties of the cat over whole runs: any interleaving of fixed steps and timer wake-ups
 the engine may produce.
 */
module CatTraces {
  import opened CatBehavior

  /** A delivered wake that finds the cat still waiting: the only event that advances the spot. */
  predicate Advances(c: Cat, e: Event) {
    Delivers(c, e) && c.state == Waiting
  }

  /** An event that makes a cat that was not waiting wait: the start of a waiting episode. */
  predicate EntersWaiting(cfg: Config, c: Cat, e: Event)
    requires ValidConfig(cfg)
  {
    c.state != Waiting && Apply(cfg, c, e).state == Waiting
  }

  function AdvanceCount(cfg: Config, c: Cat, es: seq<Event>): nat
    requires ValidConfig(cfg)
    decreases |es|
  {
    if es == [] then 0
    else (if Advances(c, es[0]) then 1 else 0) + AdvanceCount(cfg, Apply(cfg, c, es[0]), es[1..])
  }

  function EpisodeCount(cfg: Config, c: Cat, es: seq<Event>): nat
    requires ValidConfig(cfg)
    decreases |es|
  {
    if es == [] then 0
    else (if EntersWaiting(cfg, c, es[0]) then 1 else 0) + EpisodeCount(cfg, Apply(cfg, c, es[0]), es[1..])
  }

  /** Number of edge-triggered log lines the fixed steps of a run write. */
  function NoticeCount(cfg: Config, c: Cat, es: seq<Event>): nat
    requires ValidConfig(cfg)
    decreases |es|
  {
    if es == [] then 0
    else
      var n := match es[0]
        case Tick(t, s, roll) => if Step(cfg, c, t, s, roll).notice.Some? then 1 else 0
        case Wake(_) => 0;
      n + NoticeCount(cfg, Apply(cfg, c, es[0]), es[1..])
  }

  function WaitingFlag(c: Cat): nat {
    if c.state == Waiting then 1 else 0
  }

  /** Every cat reachable from a valid one is valid: the spot stays in [0, |PatrolSpots|) and a
      waiting cat always has a pending timer. */
  lemma {:induction false} RunPreservesInv(cfg: Config, c: Cat, es: seq<Event>)
    requires ValidConfig(cfg) && Inv(cfg, c)
    ensures Inv(cfg, Run(cfg, c, es))
    decreases |es|
  {
    if es != [] {
      RunPreservesInv(cfg, Apply(cfg, c, es[0]), es[1..]);
    }
  }

  lemma ReachableInv(cfg: Config, es: seq<Event>)
    requires ValidConfig(cfg)
    ensures Inv(cfg, Run(cfg, Start(cfg), es))
    ensures 0 <= Run(cfg, Start(cfg), es).spot < cfg.spotCount
  {
    RunPreservesInv(cfg, Start(cfg), es);
  }

  lemma {:induction false} RunAppend(cfg: Config, c: Cat, a: seq<Event>, b: seq<Event>)
    requires ValidConfig(cfg)
    ensures Run(cfg, c, a + b) == Run(cfg, Run(cfg, c, a), b)
    ensures AdvanceCount(cfg, c, a + b) == AdvanceCount(cfg, c, a) + AdvanceCount(cfg, Run(cfg, c, a), b)
    decreases |a|
  {
    if a == [] {
      assert a + b == b;
    } else {
      var c' := Apply(cfg, c, a[0]);
      assert (a + b)[0] == a[0];
      assert (a + b)[1..] == a[1..] + b;
      RunAppend(cfg, c', a[1..], b);
      assert Run(cfg, c, a + b) == Run(cfg, c', a[1..] + b);
      assert Run(cfg, c, a) == Run(cfg, c', a[1..]);
    }
  }

  /** Superseded timers are harmless: over any run, the spot advances at most once per
      waiting episode, because the first wake of an episode ends it. */
  lemma {:induction false} AdvancesAtMostOncePerEpisode(cfg: Config, c: Cat, es: seq<Event>)
    requires ValidConfig(cfg)
    ensures AdvanceCount(cfg, c, es) + WaitingFlag(Run(cfg, c, es)) <= EpisodeCount(cfg, c, es) + WaitingFlag(c)
    decreases |es|
  {
    if es != [] {
      var c' := Apply(cfg, c, es[0]);
      AdvancesAtMostOncePerEpisode(cfg, c', es[1..]);
      if Advances(c, es[0]) {
        assert c'.state == Patrolling;
      }
    }
  }

  /** From the initial state, which is already waiting, advances never outnumber episodes by more than one. */
  lemma AdvancesFromStart(cfg: Config, es: seq<Event>)
    requires ValidConfig(cfg)
    ensures AdvanceCount(cfg, Start(cfg), es) <= EpisodeCount(cfg, Start(cfg), es) + 1
  {
    AdvancesAtMostOncePerEpisode(cfg, Start(cfg), es);
  }

  /** Two pending timers resumed back to back, with no step in between, advance the spot at
      most once: the first leaves the cat patrolling, so the second is a no-op. */
  lemma TwoWakesAdvanceOnce(cfg: Config, c: Cat, d1: real, d2: real)
    requires ValidConfig(cfg) && Inv(cfg, c)
    requires multiset{d1, d2} <= c.pending
    ensures AdvanceCount(cfg, c, [Wake(d1), Wake(d2)]) == WaitingFlag(c)
    ensures var r := Run(cfg, c, [Wake(d1), Wake(d2)]);
      && r.pending == c.pending - multiset{d1, d2}
      && (c.state == Waiting ==> r.state == Patrolling && r.spot == Rem(c.spot + 1, cfg.spotCount))
      && (c.state != Waiting ==> r.state == c.state && r.spot == c.spot)
  {
    var es := [Wake(d1), Wake(d2)];
    var c1 := Apply(cfg, c, Wake(d1));
    assert d2 in c1.pending by {
      assert c1.pending == c.pending - multiset{d1};
      assert multiset{d1, d2}[d2] <= c.pending[d2];
    }
    var c2 := Apply(cfg, c1, Wake(d2));
    assert es[0] == Wake(d1) && es[1..] == [Wake(d2)] && es[1..][1..] == [];
    assert Run(cfg, c, es) == Run(cfg, c1, [Wake(d2)]) == c2;
    assert AdvanceCount(cfg, c, es) == WaitingFlag(c) + AdvanceCount(cfg, c1, [Wake(d2)]);
    assert AdvanceCount(cfg, c1, [Wake(d2)]) == 0;
    assert c.pending - multiset{d1} - multiset{d2} == c.pending - multiset{d1, d2};
  }

  /** The spot after `s` when the index wraps at `n`. */
  function NextSpot(s: int, n: int): int {
    if s + 1 >= n then 0 else s + 1
  }

  /** The spot reached from `s` after `k` advances. */
  function Cycle(s: int, k: nat, n: int): int
    decreases k
  {
    if k == 0 then s else NextSpot(Cycle(s, k - 1, n), n)
  }

  /** Stepping the remainder of a non-negative number wraps it like the number's successor. */
  lemma {:induction false} NextSpotOfRem(a: int, n: int)
    requires a >= 0 && n > 0
    ensures NextSpot(Rem(a, n), n) == Rem(a + 1, n)
    decreases a
  {
    if a >= n {
      NextSpotOfRem(a - n, n);
      assert Rem(a + 1, n) == Rem(a + 1 - n, n);
    } else if a + 1 == n {
      assert Rem(a + 1, n) == Rem(0, n);
    }
  }

  lemma {:induction false} CycleShift(s: int, k: nat, n: int)
    ensures Cycle(NextSpot(s, n), k, n) == Cycle(s, k + 1, n)
    decreases k
  {
    if k > 0 {
      CycleShift(s, k - 1, n);
    }
  }

  /** Advancing k times from a valid spot lands on the remainder of the sum. */
  lemma {:induction false} CycleIsRem(s: int, k: nat, n: int)
    requires 0 <= s < n
    ensures Cycle(s, k, n) == Rem(s + k, n)
    decreases k
  {
    if k > 0 {
      CycleIsRem(s, k - 1, n);
      NextSpotOfRem(s + k - 1, n);
    }
  }

  /** One event moves a valid spot one place on, wrapping to spot 0 after the last, exactly
      when it is an advance, and leaves it alone otherwise. */
  lemma SpotStep(cfg: Config, c: Cat, e: Event)
    requires ValidConfig(cfg) && Inv(cfg, c)
    ensures Apply(cfg, c, e).spot == if Advances(c, e) then NextSpot(c.spot, cfg.spotCount) else c.spot
  {
    if Advances(c, e) {
      NextSpotOfRem(c.spot, cfg.spotCount);
      assert Rem(c.spot, cfg.spotCount) == c.spot;
    }
  }

  /** Only advances move the spot, each by one place cyclically. */
  lemma {:induction false} SpotFollowsAdvances(cfg: Config, c: Cat, es: seq<Event>)
    requires ValidConfig(cfg) && Inv(cfg, c)
    ensures Run(cfg, c, es).spot == Cycle(c.spot, AdvanceCount(cfg, c, es), cfg.spotCount)
    decreases |es|
  {
    if es != [] {
      var c' := Apply(cfg, c, es[0]);
      SpotStep(cfg, c, es[0]);
      SpotFollowsAdvances(cfg, c', es[1..]);
      if Advances(c, es[0]) {
        CycleShift(c.spot, AdvanceCount(cfg, c', es[1..]), cfg.spotCount);
      }
    }
  }


  /** The spot index is the number of advances so far, cyclically: after N completed waits the
      cat is at spot N mod |PatrolSpots| counted from where it began. */
  lemma SpotCountsAdvances(cfg: Config, c: Cat, es: seq<Event>)
    requires ValidConfig(cfg) && Inv(cfg, c)
    ensures Run(cfg, c, es).spot == Rem(c.spot + AdvanceCount(cfg, c, es), cfg.spotCount)
  {
    SpotFollowsAdvances(cfg, c, es);
    CycleIsRem(c.spot, AdvanceCount(cfg, c, es), cfg.spotCount);
  }

  /** One patrol leg completed: the cat, out of the player's range, reaches its spot, and the
      wait this starts runs out. */
  function ArrivalRound(cfg: Config, far: real, near: real, roll: real): seq<Event> {
    [Tick(far, near, roll), Wake(RandomRange(cfg.waitTime / 2.0, cfg.waitTime * 2.0, roll))]
  }

  function ArrivalRounds(cfg: Config, far: real, near: real, roll: real, k: nat): seq<Event> {
    if k == 0 then [] else ArrivalRounds(cfg, far, near, roll, k - 1) + ArrivalRound(cfg, far, near, roll)
  }

  lemma ArrivalRoundAdvances(cfg: Config, c: Cat, far: real, near: real, roll: real)
    requires ValidConfig(cfg) && Inv(cfg, c) && c.state == Patrolling
    requires OutOfRange(cfg, far) && near <= cfg.stopRadius
    ensures AdvanceCount(cfg, c, ArrivalRound(cfg, far, near, roll)) == 1
    ensures Run(cfg, c, ArrivalRound(cfg, far, near, roll)).state == Patrolling
  {
    var es := ArrivalRound(cfg, far, near, roll);
    var wait := RandomRange(cfg.waitTime / 2.0, cfg.waitTime * 2.0, roll);
    var c1 := Apply(cfg, c, es[0]);
    assert c1.state == Waiting && wait in c1.pending;
    var c2 := Apply(cfg, c1, Wake(wait));
    assert c2.state == Patrolling;
    assert es[1..] == [Wake(wait)] && es[1..][1..] == [];
    assert Run(cfg, c, es) == Run(cfg, c1, [Wake(wait)]) == c2;
    assert AdvanceCount(cfg, c1, [Wake(wait)]) == 1;
    assert AdvanceCount(cfg, c, es) == 0 + AdvanceCount(cfg, c1, [Wake(wait)]);
  }

  lemma {:induction false} ArrivalRoundsAdvance(cfg: Config, c: Cat, far: real, near: real, roll: real, k: nat)
    requires ValidConfig(cfg) && Inv(cfg, c) && c.state == Patrolling
    requires OutOfRange(cfg, far) && near <= cfg.stopRadius
    ensures AdvanceCount(cfg, c, ArrivalRounds(cfg, far, near, roll, k)) == k
    ensures Run(cfg, c, ArrivalRounds(cfg, far, near, roll, k)).state == Patrolling
  {
    if k > 0 {
      var prefix := ArrivalRounds(cfg, far, near, roll, k - 1);
      var round := ArrivalRound(cfg, far, near, roll);
      assert ArrivalRounds(cfg, far, near, roll, k) == prefix + round;
      ArrivalRoundsAdvance(cfg, c, far, near, roll, k - 1);
      var mid := Run(cfg, c, prefix);
      RunPreservesInv(cfg, c, prefix);
      ArrivalRoundAdvances(cfg, mid, far, near, roll);
      RunAppend(cfg, c, prefix, round);
    }
  }

  /** Waypoint cycling: K uninterrupted arrivals starting at spot s leave the cat patrolling
      towards spot (s + K) mod |PatrolSpots|. */
  lemma PatrolCycles(cfg: Config, c: Cat, far: real, near: real, roll: real, k: nat)
    requires ValidConfig(cfg) && Inv(cfg, c) && c.state == Patrolling
    requires OutOfRange(cfg, far) && near <= cfg.stopRadius
    ensures Run(cfg, c, ArrivalRounds(cfg, far, near, roll, k)).state == Patrolling
    ensures Run(cfg, c, ArrivalRounds(cfg, far, near, roll, k)).spot == Rem(c.spot + k, cfg.spotCount)
  {
    var es := ArrivalRounds(cfg, far, near, roll, k);
    ArrivalRoundsAdvance(cfg, c, far, near, roll, k);
    SpotFollowsAdvances(cfg, c, es);
    CycleIsRem(c.spot, k, cfg.spotCount);
  }

  predicate AllCaughtTicks(cfg: Config, es: seq<Event>) {
    forall i :: 0 <= i < |es| ==> es[i].Tick? && es[i].targetDist <= cfg.stopRadius
  }

  /** Holding the player inside the stop radius keeps the cat Caught and logs the catch once,
      on the first step, and never if it was already Caught. */
  lemma {:induction false} CaughtNoticedOnce(cfg: Config, c: Cat, es: seq<Event>)
    requires ValidConfig(cfg)
    requires |es| > 0 && AllCaughtTicks(cfg, es)
    ensures Run(cfg, c, es).state == Caught
    ensures NoticeCount(cfg, c, es) == if c.state == Caught then 0 else 1
    decreases |es|
  {
    var c' := Apply(cfg, c, es[0]);
    assert c'.state == Caught;
    if |es| > 1 {
      assert AllCaughtTicks(cfg, es[1..]) by {
        forall i | 0 <= i < |es[1..]| ensures es[1..][i].Tick? && es[1..][i].targetDist <= cfg.stopRadius {
          assert es[1..][i] == es[i + 1];
        }
      }
      CaughtNoticedOnce(cfg, c', es[1..]);
    } else {
      assert es[1..] == [];
    }
  }

  /** A timer started by an earlier lost chase can end a later patrol wait early: the cat
      resumes patrolling while the wait its arrival started is still pending. */
  lemma StaleTimerEndsLaterWait()
    ensures var cfg := Config(5.0, 1.0, 2, 4.0);
      var r := Run(cfg, Start(cfg),
        [Wake(4.0),                 // the initial wait ends: patrol to spot 1
         Tick(2.0, 3.0, 0.0),       // player comes into range: pursue
         Tick(9.0, 3.0, 0.0),       // player lost: wait, timer A
         Tick(2.0, 3.0, 0.0),       // player back in range while A is pending
         Tick(9.0, 3.0, 0.0),       // player lost again: timer B
         Wake(4.0),                 // A resumes the wait: patrol to spot 0
         Tick(9.0, 0.5, 8.0),       // arrival at spot 0: wait 8 seconds
         Wake(4.0)]);               // B, from the earlier chase, ends that wait
      r.state == Patrolling && r.spot == 1 && r.pending == multiset{8.0}
  {
    var cfg := Config(5.0, 1.0, 2, 4.0);
    var c1 := Apply(cfg, Start(cfg), Wake(4.0));
    assert c1 == Cat(Patrolling, 1, multiset{});
    var c2 := Apply(cfg, c1, Tick(2.0, 3.0, 0.0));
    assert c2 == Cat(Pursuing, 1, multiset{});
    var c3 := Apply(cfg, c2, Tick(9.0, 3.0, 0.0));
    assert c3 == Cat(Waiting, 1, multiset{4.0});
    var c4 := Apply(cfg, c3, Tick(2.0, 3.0, 0.0));
    assert c4 == Cat(Pursuing, 1, multiset{4.0});
    var c5 := Apply(cfg, c4, Tick(9.0, 3.0, 0.0));
    assert c5 == Cat(Waiting, 1, multiset{4.0, 4.0});
    var c6 := Apply(cfg, c5, Wake(4.0));
    assert c6 == Cat(Patrolling, 0, multiset{4.0});
    var c7 := Apply(cfg, c6, Tick(9.0, 0.5, 8.0));
    assert c7 == Cat(Waiting, 0, multiset{4.0, 8.0});
  }
}

=== FILE: interactable.dfy ===
/**
 An interactable scene object (Assets/Scripts/Interactable.cs): when the player interacts with
 it, a collectable item bumps its Yarn counter variable and is marked collected, and then the
 object either opens its dialogue node or, having no node, is destroyed at once if collected.
 A collected object is destroyed when a dialogue completes.

 The dialogue runner's variable storage is the map of its float variables; `None` stands for a
 runner without a VariableStorageBehaviour. What the object asks of the engine is an `Effect`.
 */
module Interactable {
  import opened Optional

  /** The serialized fields, Collected, and whether Start found a DialogueRunner. */
  datatype Item = Item(itemName: string, yarnTitle: string, collectable: bool, collected: bool, hasRunner: bool)

  type Storage = Option<map<string, real>>

  datatype Effect = StartDialogue(title: string) | DestroySelf

  datatype Outcome = Outcome(item: Item, storage: Storage, effect: Option<Effect>)

  /** The name of the Yarn variable counting collected items of one name: `$<name>Count`. */
  function CounterKey(name: string): (k: string)
    ensures |k| == |name| + 6 && k[0] == '$' && k[1..|name| + 1] == name && k[|name| + 1..] == "Count"
  {
    "$" + name + "Count"
  }

  /** Counter keys of different item names differ, so every name counts separately. */
  lemma CounterKeyInjective(a: string, b: string)
    requires CounterKey(a) == CounterKey(b)
    ensures a == b
  {
  }

  /** Start: not collected yet. */
  function Init(itemName: string, yarnTitle: string, collectable: bool, hasRunner: bool): (it: Item)
    ensures !it.collected
    ensures it.itemName == itemName && it.yarnTitle == yarnTitle
    ensures it.collectable == collectable && it.hasRunner == hasRunner
  {
    Item(itemName, yarnTitle, collectable, false, hasRunner)
  }

  /** The counter of an item name, if the storage holds it as a float. */
  function Counter(st: Storage, name: string): Option<real> {
    if st.Some? && CounterKey(name) in st.value then Some(st.value[CounterKey(name)]) else None
  }

  /** TryGetValue then SetValue of the counter: one more, and only when it exists. */
  function Bump(st: Storage, name: string): (r: Storage)
    ensures r.Some? <==> st.Some?
    ensures Counter(st, name).Some? ==> Counter(r, name) == Some(Counter(st, name).value + 1.0)
    ensures Counter(st, name).None? ==> r == st
    ensures r.Some? ==> r.value.Keys == st.value.Keys
    ensures r.Some? ==> forall k :: k in st.value && k != CounterKey(name) ==> r.value[k] == st.value[k]
  {
    var key := CounterKey(name);
    if st.Some? && key in st.value then Some(st.value[key := st.value[key] + 1.0]) else st
  }

  /** Interact: nothing without a runner; otherwise count and mark a collectable item, then
      start the item's dialogue, or destroy the object when there is none and it is collected. */
  function Interact(it: Item, st: Storage): (r: Outcome)
    ensures !it.hasRunner ==> r == Outcome(it, st, None)
    ensures r.item == it.(collected := it.collected || (it.hasRunner && it.collectable))
    // only a collectable item touches the storage, and only its own counter
    ensures it.hasRunner && it.collectable ==> r.storage == Bump(st, it.itemName)
    ensures !(it.hasRunner && it.collectable) ==> r.storage == st
    // a dialogue node takes precedence over destruction
    ensures it.hasRunner && it.yarnTitle != [] ==> r.effect == Some(StartDialogue(it.yarnTitle))
    ensures it.hasRunner && it.yarnTitle == [] ==> r.effect == (if r.item.collected then Some(DestroySelf) else None)
    ensures r.effect != Some(DestroySelf) || r.item.collected
  {
    if !it.hasRunner then
      Outcome(it, st, None)
    else
      var st' := if it.collectable then Bump(st, it.itemName) else st;
      var it' := if it.collectable then it.(collected := true) else it;
      var effect :=
        if it'.yarnTitle != [] then Some(StartDialogue(it'.yarnTitle))
        else if it'.collected then Some(DestroySelf)
        else None;
      Outcome(it', st', effect)
  }

  /** OnDialogEnd, run whenever the runner completes a dialogue: a collected object goes. */
  function OnDialogEnd(it: Item): (r: Option<Effect>)
    ensures it.collected ==> r == Some(DestroySelf)
    ensures !it.collected ==> r == None
  {
    if it.collected then Some(DestroySelf) else None
  }

  /** Collected is only ever set on a collectable item. */
  predicate Inv(it: Item) {
    it.collected ==> it.collectable
  }

  /** What one object sees: the player interacting with it, or a dialogue completing. */
  datatype Event = Use | DialogueDone

  /** One object in the scene with the runner's storage; a destroyed object takes no part. */
  datatype World = World(item: Item, storage: Storage, alive: bool, dialogues: seq<string>)

  function Apply(w: World, e: Event): (r: World)
    ensures r.item.itemName == w.item.itemName && r.item.collectable == w.item.collectable
    ensures Inv(w.item) ==> Inv(r.item)
    ensures !w.alive ==> r == w
  {
    if !w.alive then w
    else match e
      case Use =>
        var o := Interact(w.item, w.storage);
        World(o.item, o.storage, o.effect != Some(DestroySelf),
              w.dialogues + (if o.effect.Some? && o.effect.value.StartDialogue? then [o.effect.value.title] else []))
      case DialogueDone =>
        w.(alive := OnDialogEnd(w.item) != Some(DestroySelf))
  }

  function Run(w: World, es: seq<Event>): World
    decreases |es|
  {
    if es == [] then w else Run(Apply(w, es[0]), es[1..])
  }

  /** Number of interactions that reach the object while it exists. */
  function LiveUses(w: World, es: seq<Event>): nat
    decreases |es|
  {
    if es == [] then 0
    else (if w.alive && es[0].Use? then 1 else 0) + LiveUses(Apply(w, es[0]), es[1..])
  }

  /** The state of an object just after Start. */
  function Fresh(itemName: string, yarnTitle: string, collectable: bool, hasRunner: bool, st: Storage): (w: World)
    ensures w.alive && w.dialogues == [] && Inv(w.item) && w.storage == st
    ensures w.item == Init(itemName, yarnTitle, collectable, hasRunner)
  {
    World(Init(itemName, yarnTitle, collectable, hasRunner), st, true, [])
  }

  /** A destroyed object was collected, and so was collectable: plain props and dialogue
      triggers are never destroyed, whatever the player does. */
  lemma {:induction false} OnlyCollectedDestroyed(w: World, es: seq<Event>)
    requires Inv(w.item) && (!w.alive ==> w.item.collected)
    ensures var r := Run(w, es); Inv(r.item) && (!r.alive ==> r.item.collected && r.item.collectable)
    ensures Run(w, es).item.collectable == w.item.collectable
    decreases |es|
  {
    if es != [] {
      OnlyCollectedDestroyed(Apply(w, es[0]), es[1..]);
    }
  }

  lemma NonCollectableSurvives(itemName: string, yarnTitle: string, hasRunner: bool, st: Storage, es: seq<Event>)
    ensures Run(Fresh(itemName, yarnTitle, false, hasRunner, st), es).alive
  {
    OnlyCollectedDestroyed(Fresh(itemName, yarnTitle, false, hasRunner, st), es);
  }

  /** Every interaction that reaches a collectable object raises its counter by one, when the
      storage holds that counter; the storage keeps its set of variables. */
  lemma {:induction false} CounterCountsUses(w: World, es: seq<Event>)
    requires w.item.hasRunner && w.item.collectable
    requires Counter(w.storage, w.item.itemName).Some?
    ensures Run(w, es).storage.Some?
    ensures Run(w, es).storage.value.Keys == w.storage.value.Keys
    ensures Counter(Run(w, es).storage, w.item.itemName)
      == Some(Counter(w.storage, w.item.itemName).value + LiveUses(w, es) as real)
    decreases |es|
  {
    if es != [] {
      var w' := Apply(w, es[0]);
      assert w'.item.hasRunner && w'.item.itemName == w.item.itemName;
      CounterCountsUses(w', es[1..]);
    }
  }

  /** A non-collectable object never touches the storage. */
  lemma {:induction false} NonCollectableKeepsStorage(w: World, es: seq<Event>)
    requires !w.item.collectable
    ensures Run(w, es).storage == w.storage
    decreases |es|
  {
    if es != [] {
      NonCollectableKeepsStorage(Apply(w, es[0]), es[1..]);
    }
  }

  /** A collectable item with a dialogue node: the interaction opens the node, the object stays
      for it, and it goes when the dialogue completes. */
  lemma CollectWithDialogue(itemName: string, yarnTitle: string, st: Storage)
    requires yarnTitle != []
    ensures var w1 := Apply(Fresh(itemName, yarnTitle, true, true, st), Use);
      && w1.alive && w1.dialogues == [yarnTitle] && w1.item.collected
      && !Apply(w1, DialogueDone).alive
  {
  }

  /** A collectable item without a dialogue node is destroyed by the interaction itself. */
  lemma CollectWithoutDialogue(itemName: string, st: Storage)
    ensures var w1 := Apply(Fresh(itemName, [], true, true, st), Use); !w1.alive && w1.dialogues == []
  {
  }

  /** Several collectable objects of one name, each picked up once: the shared counter rises
      by their number. */
  function CollectAll(items: seq<Item>, st: Storage): Storage
    decreases |items|
  {
    if items == [] then st else CollectAll(items[1..], Interact(items[0], st).storage)
  }

  lemma {:induction false} CollectAllCounts(items: seq<Item>, name: string, st: Storage)
    requires forall i :: 0 <= i < |items| ==> items[i].itemName == name && items[i].collectable && items[i].hasRunner
    requires Counter(st, name).Some?
    ensures Counter(CollectAll(items, st), name) == Some(Counter(st, name).value + |items| as real)
    decreases |items|
  {
    if items != [] {
      var st' := Interact(items[0], st).storage;
      assert forall i :: 0 <= i < |items[1..]| ==> items[1..][i] == items[i + 1];
      CollectAllCounts(items[1..], name, st');
    }
  }
}

=== FILE: optional.dfy ===
/** The optional value used for engine effects that may or may not be emitted. */
module Optional {

  datatype Option<+T> = None | Some(value: T)

}

=== FILE: player_controller.dfy ===
/**
 The player controller (Assets/Scripts/PlayerCharacter/PlayerController.cs): move input sets a
 target velocity, each fixed step hands it to the physics body and remembers the facing, and
 an active dialogue zeroes the target velocity, stops driving the body, and blocks input and
 interaction.
 */
module PlayerController {
  import opened Optional

  /** A Vector2. Components are exact reals; the engine's floats are not modelled. */
  datatype Vec2 = Vec2(x: real, y: real)

  const Zero: Vec2 := Vec2(0.0, 0.0)
  const Down: Vec2 := Vec2(0.0, -1.0)

  function Scale(v: Vec2, k: real): Vec2 {
    Vec2(v.x * k, v.y * k)
  }

  /** TargetVelocity, Facing and DialogActive. `.normalized` keeps a vector's direction and
      only changes its length, and the probe uses the facing as a direction only, so the
      facing is kept as the (unnormalized) vector it was taken from: zero stays zero, and any
      other vector stands for its own direction. */
  datatype Player = Player(velocity: Vec2, facing: Vec2, dialogActive: bool)

  /** What every reachable player keeps: no target velocity during a dialogue, and a facing
      that points somewhere. */
  predicate Inv(p: Player) {
    && (p.dialogActive ==> p.velocity == Zero)
    && p.facing != Zero
  }

  /** Start: standing still, facing down, no dialogue. */
  function Init(): (p: Player)
    ensures p.velocity == Zero && p.facing == Down && !p.dialogActive
    ensures Inv(p)
  {
    Player(Zero, Down, false)
  }

  /** OnDialogStart as PlayerController.cs writes it: the facing is overwritten with the direction of
      the target velocity even when that velocity is zero. */
  function OnDialogStartAsWritten(p: Player): (r: Player)
    ensures r.dialogActive && r.velocity == Zero
    ensures p.velocity == Zero ==> r.facing == Zero
    ensures p.velocity != Zero ==> r.facing == p.velocity
  {
    Player(Zero, p.velocity, true)
  }

  /** OnDialogStart with the facing kept when the player stands still, as the idle branch of
      UpdateMovement does. */
  function OnDialogStart(p: Player): (r: Player)
    ensures r.dialogActive && r.velocity == Zero
    ensures p.velocity == Zero ==> r.facing == p.facing
    ensures p.velocity != Zero ==> r.facing == OnDialogStartAsWritten(p).facing
    ensures Inv(p) ==> Inv(r)
  {
    if p.velocity == Zero then
      Player(Zero, p.facing, true)
    else
      Player(Zero, p.velocity, true)
  }

  /** OnDialogEnd: only the dialogue flag changes. */
  function OnDialogEnd(p: Player): (r: Player)
    ensures !r.dialogActive
    ensures r.velocity == p.velocity && r.facing == p.facing
    ensures Inv(p) ==> Inv(r)
  {
    p.(dialogActive := false)
  }

  /** OnMove: ignored during a dialogue, otherwise the target velocity is the input scaled by
      MoveSpeed. */
  function OnMove(p: Player, input: Vec2, moveSpeed: real): (r: Player)
    ensures p.dialogActive ==> r == p
    ensures !p.dialogActive ==>
      r.velocity == Scale(input, moveSpeed) && r.facing == p.facing && !r.dialogActive
    ensures Inv(p) ==> Inv(r)
  {
    if p.dialogActive then p else p.(velocity := Scale(input, moveSpeed))
  }

  /** What a movement update hands to the engine: the body velocity, the Walking flag and,
      when walking, the Horizontal/Vertical animator values. */
  datatype Drive = Drive(body: Vec2, walking: bool, anim: Option<Vec2>)

  datatype Tick = Tick(player: Player, drive: Option<Drive>)

  /** FixedUpdate / UpdateMovement: nothing happens during a dialogue; otherwise the body moves
      at the target velocity times the step, and the facing follows a non-zero velocity. */
  function FixedStep(p: Player, dt: real): (r: Tick)
    ensures p.dialogActive ==> r.player == p && r.drive == None
    ensures !p.dialogActive ==>
      && r.drive.Some?
      && r.drive.value.body == Scale(p.velocity, dt)
      && (r.drive.value.walking <==> p.velocity != Zero)
      && r.drive.value.anim == (if p.velocity == Zero then None else Some(p.velocity))
    ensures r.player.velocity == p.velocity && r.player.dialogActive == p.dialogActive
    ensures p.velocity == Zero ==> r.player.facing == p.facing
    ensures !p.dialogActive && p.velocity != Zero ==> r.player.facing == p.velocity
    ensures Inv(p) ==> Inv(r.player)
  {
    if p.dialogActive then
      Tick(p, None)
    else if p.velocity == Zero then
      Tick(p, Some(Drive(Scale(p.velocity, dt), false, None)))
    else
      Tick(p.(facing := p.velocity), Some(Drive(Scale(p.velocity, dt), true, Some(p.velocity))))
  }

  /** The raycast OnInteract performs: along the facing, one unit long. */
  datatype Probe = Probe(direction: Vec2, length: real)

  /** OnInteract: nothing during a dialogue; otherwise probe one unit along the facing for an
      interactable, whose Interact the engine then calls. */
  function OnInteract(p: Player): (r: Option<Probe>)
    ensures r.None? <==> p.dialogActive
    ensures r.Some? ==> r.value.direction == p.facing && r.value.length == 1.0
  {
    if p.dialogActive then None else Some(Probe(p.facing, 1.0))
  }

  /** The callbacks the engine and the dialogue runner deliver to the player. */
  datatype Event =
    | Move(input: Vec2)
    | Interact
    | DialogStart
    | DialogEnd
    | Fixed(dt: real)

  /** The callbacks dispatched with the corrected OnDialogStart. */
  function Apply(p: Player, moveSpeed: real, e: Event): (r: Player)
    ensures Inv(p) ==> Inv(r)
  {
    match e
    case Move(input) => OnMove(p, input, moveSpeed)
    case Interact => p
    case DialogStart => OnDialogStart(p)
    case DialogEnd => OnDialogEnd(p)
    case Fixed(dt) => FixedStep(p, dt).player
  }

  function Run(p: Player, moveSpeed: real, es: seq<Event>): Player
    decreases |es|
  {
    if es == [] then p else Run(Apply(p, moveSpeed, es[0]), moveSpeed, es[1..])
  }

  /** From the start of the game, whatever the callbacks, the player never gains a target
      velocity during a dialogue and always faces a genuine direction. */
  lemma {:induction false} RunPreservesInv(p: Player, moveSpeed: real, es: seq<Event>)
    requires Inv(p)
    ensures Inv(Run(p, moveSpeed, es))
    decreases |es|
  {
    if es != [] {
      RunPreservesInv(Apply(p, moveSpeed, es[0]), moveSpeed, es[1..]);
    }
  }

  lemma ReachableFacesSomewhere(moveSpeed: real, es: seq<Event>)
    ensures Run(Init(), moveSpeed, es).facing != Zero
    ensures Run(Init(), moveSpeed, es).dialogActive ==> Run(Init(), moveSpeed, es).velocity == Zero
  {
    RunPreservesInv(Init(), moveSpeed, es);
  }

  /** With the corrected OnDialogStart, a player that may interact always probes along a
      genuine direction. */
  lemma ReachableProbeHasDirection(moveSpeed: real, es: seq<Event>)
    ensures var q := OnInteract(Run(Init(), moveSpeed, es));
      q.Some? ==> q.value.direction != Zero && q.value.length == 1.0
    ensures OnInteract(Run(Init(), moveSpeed, es)).None? <==> Run(Init(), moveSpeed, es).dialogActive
  {
    RunPreservesInv(Init(), moveSpeed, es);
  }

  /** The callbacks dispatched as PlayerController.cs writes them. */
  function ApplyAsWritten(p: Player, moveSpeed: real, e: Event): Player {
    match e
    case Move(input) => OnMove(p, input, moveSpeed)
    case Interact => p
    case DialogStart => OnDialogStartAsWritten(p)
    case DialogEnd => OnDialogEnd(p)
    case Fixed(dt) => FixedStep(p, dt).player
  }

  function RunAsWritten(p: Player, moveSpeed: real, es: seq<Event>): Player
    decreases |es|
  {
    if es == [] then p else RunAsWritten(ApplyAsWritten(p, moveSpeed, es[0]), moveSpeed, es[1..])
  }

  /** No target velocity while a dialogue is active. */
  predicate DialogGated(p: Player) {
    p.dialogActive ==> p.velocity == Zero
  }

  /** Even as written, the player never gains a target velocity during a dialogue: only the
      facing is at risk. */
  lemma {:induction false} AsWrittenDialogGated(p: Player, moveSpeed: real, es: seq<Event>)
    requires DialogGated(p)
    ensures DialogGated(RunAsWritten(p, moveSpeed, es))
    decreases |es|
  {
    if es != [] {
      var p' := ApplyAsWritten(p, moveSpeed, es[0]);
      assert DialogGated(p');
      AsWrittenDialogGated(p', moveSpeed, es[1..]);
    }
  }

  predicate NoDialogEnd(es: seq<Event>) {
    forall i :: 0 <= i < |es| ==> !es[i].DialogEnd?
  }

  /** While a dialogue lasts, no callback changes the target velocity or (with the corrected
      OnDialogStart) turns it. */
  lemma {:induction false} DialogFreezes(p: Player, moveSpeed: real, es: seq<Event>)
    requires Inv(p) && p.dialogActive
    requires NoDialogEnd(es)
    ensures Run(p, moveSpeed, es) == p
    decreases |es|
  {
    if es != [] {
      var p' := Apply(p, moveSpeed, es[0]);
      assert p' == p;
      assert NoDialogEnd(es[1..]) by {
        forall i | 0 <= i < |es[1..]| ensures !es[1..][i].DialogEnd? {
          assert es[1..][i] == es[i + 1];
        }
      }
      DialogFreezes(p', moveSpeed, es[1..]);
    }
  }

  /** As written, a dialogue still holds the player in place: the flag stays set and the
      target velocity stays zero until the dialogue ends. */
  lemma {:induction false} AsWrittenDialogHoldsStill(p: Player, moveSpeed: real, es: seq<Event>)
    requires p.dialogActive && p.velocity == Zero
    requires NoDialogEnd(es)
    ensures RunAsWritten(p, moveSpeed, es).dialogActive
    ensures RunAsWritten(p, moveSpeed, es).velocity == Zero
    decreases |es|
  {
    if es != [] {
      var p' := ApplyAsWritten(p, moveSpeed, es[0]);
      assert p'.dialogActive && p'.velocity == Zero;
      assert NoDialogEnd(es[1..]) by {
        forall i | 0 <= i < |es[1..]| ensures !es[1..][i].DialogEnd? {
          assert es[1..][i] == es[i + 1];
        }
      }
      AsWrittenDialogHoldsStill(p', moveSpeed, es[1..]);
    }
  }

  /** Moving then stepping makes the player face the way it was pushed (for a positive
      MoveSpeed), and the interaction probe then points that way. */
  lemma MoveThenStepFacesInput(p: Player, input: Vec2, moveSpeed: real, dt: real)
    requires !p.dialogActive && input != Zero && moveSpeed > 0.0
    ensures var q := FixedStep(OnMove(p, input, moveSpeed), dt).player;
      && q.facing == Scale(input, moveSpeed) && q.facing != Zero
      && OnInteract(q) == Some(Probe(Scale(input, moveSpeed), 1.0))
  {
  }

  /** A dialogue started and ended leaves the player standing still, free to move, and facing
      the way it last moved or, if it was standing, the way it already faced. */
  lemma DialogRoundTrip(p: Player)
    requires Inv(p)
    ensures var q := OnDialogEnd(OnDialogStart(p));
      && q.velocity == Zero && !q.dialogActive && Inv(q)
      && q.facing == (if p.velocity == Zero then p.facing else p.velocity)
  {
  }

  /** As written, a dialogue that starts while the player stands still (the opening dialogue,
      for one) leaves the player facing nowhere, so once the dialogue ends the interaction
      probe has no direction until the player moves again. */
  lemma IdleDialogLosesFacing()
    ensures OnDialogStartAsWritten(Init()).facing == Zero
    ensures OnInteract(OnDialogEnd(OnDialogStartAsWritten(Init()))) == Some(Probe(Zero, 1.0))
    ensures OnInteract(OnDialogEnd(OnDialogStart(Init()))) == Some(Probe(Down, 1.0))
  {
  }
}
